=== FILE: README.md ===
# SOlf drawing game — a Dafny model

SOlf is a browser physics puzzle. A ball falls in a box. The player sketches
static obstacles on the canvas until the ball rolls into a hole, and the
hole then resets the world. Everything in the game logic lives in `game.js`.
Matter.js runs the physics and draws the scene.

This project models the game logic of `game.js` as pure functions over an
immutable state record:

- `geometry.dfy` (`Geometry`): points, the three shape descriptors (rectangle,
  circle, polygon), and the extent of a rectangle.
- `bodies.dfy` (`Bodies`): body descriptors. Each is a shape, the options the
  game passes (`isStatic`, `isSensor`, `restitution`) and a role tag (Ball,
  Hole, Ground, LeftWall, RightWall, Ceiling, Drawn). The world is a sequence
  of these plus the opaque mouse constraint. The module also counts bodies
  by role.
- `layout.dfy` (`Layout`): the fixed layout created at start-up. This is the
  ball, the hole, the four boundary rectangles just outside the playfield and
  the mouse constraint. The canvas width and height are parameters.
- `drawing.dfy` (`Drawing`): the drawing machine. It covers the tool
  selection, pointer down (`StartDrawing`) and pointer up (`FinishDrawing`)
  with their rules for the rectangle, circle and irregular tools.
- `session.dfy` (`Session`): reset, the collision-start handler and a driver.
  The driver runs the game over a sequence of events. Lemmas then show that
  every reachable world holds exactly one ball, one hole and the four
  boundaries, followed only by static drawn bodies.

Modelling decisions:

- Coordinates are exact `real`s. A pointer position is the event's
  `clientX`/`clientY`, a viewport coordinate, which `game.js` uses as a world
  coordinate without subtracting the canvas offset. The model does the same.
- The engine's body constructors become descriptor builders that record
  their arguments. When the source leaves an option out, the descriptor
  takes Matter.js's default: dynamic, not a sensor, restitution 0.
- `Bodies.fromVertices` is recorded as its placement point plus its vertex
  list.
- The source compares bodies by object identity (`pair.bodyA === ball`).
  The model compares descriptors by value. Every descriptor carries its role
  tag, so a drawn body can never equal the ball or the hole.
- The ball's live position and velocity are kept in the state, apart from
  its construction descriptor. The engine changes them through the
  `EngineMoved` event.
- `startX`/`startY` are undefined until the first pointer down. The model
  starts them at the origin. Nothing reads them until a pointer down has
  written them, because `isDrawing` is false until then.

Behaviours of `game.js` a reader may not expect:

- A zero-size rectangle or a zero-radius circle is added like any other. It
  is not discarded.
- An irregular stroke that ends with two or fewer buffered points adds
  nothing. It also does not clear the buffer, so the next stroke keeps
  adding to it. A switch of tool does not clear the buffer either. The end
  point of such a stroke is not recorded. Only the stroke that finally
  succeeds contributes its end point. So three strokes yield a polygon over
  three start points and one end point (`Session.ThreeIrregularStrokes`).
- A reset does not cancel a stroke in progress. It does not touch the
  vertex buffer or the selected tool either.
- The collision handler examines every pair in the batch. It does not stop
  at the first ball/hole pair, so each such pair triggers its own reset.
  Resets are idempotent, so the outcome is a single reset.
- `game.js` has one fixed layout. After its "Level Complete!" alert it
  resets to that same layout.

## Model

| member | source | states |
|---|---|---|
| Layout.BallBody | game.js:32-35 | the ball is a dynamic, non-sensor circle of radius 20 at (100,100) with restitution 0.7 |
| Layout.HoleBody | game.js:36-40 | the hole is a static sensor circle of radius 30 whose centre is 100 in from the right edge and 100 up from the bottom edge |
| Layout.GroundBody | game.js:45-49 | the ground is a static rectangle spanning x in [0,width] and y in [height,height+50], with restitution 0.8 |
| Layout.LeftWallBody | game.js:50 | the left wall is a static rectangle spanning x in [-50,0] and y in [0,height] |
| Layout.RightWallBody | game.js:51 | the right wall is a static rectangle spanning x in [width,width+50] and y in [0,height] |
| Layout.CeilingBody | game.js:52 | the ceiling is a static rectangle spanning x in [0,width] and y in [-50,0] |
| Layout.BoundariesEnclosePlayfield | game.js:44-53 | each of the four boundaries is a static rectangle with no interior point in the playfield [0,width]x[0,height]; the ground lies on and covers the bottom edge, the left wall the left edge, the right wall the right edge and the ceiling the top edge |
| Layout.FixedWorldCounts | game.js:42-64 | the start-up world has seven items: exactly one ball, one hole, one ground, one left wall, one right wall, one ceiling and one mouse constraint, and no drawn body |
| Drawing.Initial | game.js:66-69 | at start-up the rectangle tool is selected, no stroke is in progress, the buffer is empty, the world is the fixed world and the ball is at rest at its start |
| Drawing.SetMode | game.js:71-73 | selecting a tool changes only the tool; the vertex buffer, the stroke in progress, the world and the ball are unchanged |
| Drawing.StartDrawing | game.js:81-93 | pointer down starts a stroke at p; the buffer keeps its old contents as a prefix and gains p as its last point exactly when the irregular tool is selected |
| Drawing.FinishDrawing | game.js:95-123 | without a stroke nothing changes; otherwise the stroke ends. Rectangle: one static drawn rectangle is appended, spanning exactly the bounding box of start and end. Circle: one static drawn circle is appended, centred at the start, whose diameter is the larger of the two extents. Irregular with more than two buffered points: one static polygon over the buffer plus the end point is appended (at least four vertices), placed at the start, and the buffer is emptied. Irregular otherwise: world and buffer are unchanged |
| Drawing.DegenerateRectangleKept | game.js:103-108 | a click without a drag in rectangle mode appends a zero-size rectangle at the click point |
| Session.Reset | game.js:135-140 | reset makes the world exactly the fixed world, with no drawn body, whatever it held. It puts the ball at (100,100) with zero velocity and leaves the tool, the stroke and the buffer unchanged |
| Session.ResetIdempotent | game.js:135-140 | resetting twice equals resetting once |
| Session.ResetRestoresStartup | game.js:135-140 | the reset world and ball do not depend on the previous world or ball and equal the start-up world and ball |
| Session.HandlePairs | game.js:126-133 | a collision batch with no ball/hole pair (in either order) leaves the state unchanged; a batch with at least one such pair anywhere yields exactly one reset of the state before it |
| Session.Step | game.js:71-79 | each event runs its handler: a tool button sets that tool and keeps the buffer and world; pointer down starts a stroke at its point; pointer up ends any stroke and is a no-op without one; the reset button yields exactly a reset; a collision batch yields a reset when some pair is ball/hole in either order and the unchanged state otherwise; the engine's only effect is to set the ball's position and velocity; tool selection and pointer events never move the ball |
| Session.FinishPreservesWorldInv | game.js:100-123 | finishing a stroke keeps the world in the shape "fixed world, then static drawn bodies only" |
| Session.StepPreservesWorldInv | game.js:100-140 | every event keeps the world in the shape "fixed world, then static drawn bodies only" |
| Session.RunPreservesWorldInv | game.js:100-140 | any sequence of events keeps the world in that shape |
| Session.WorldInvCounts | game.js:42-64 | a world of that shape holds exactly one ball, one hole, one of each boundary and one mouse constraint, and its remaining bodies are all drawn |
| Session.ReachableWorldCounts | game.js:42-140 | from start-up, after any events, the world holds exactly one ball, one hole and one of each boundary |
| Session.ShortIrregularStroke | game.js:81-121 | with the irregular tool and at most one buffered point, a stroke appends only its start point to the buffer, adds nothing to the world, ends the stroke and keeps the tool |
| Session.ClosingIrregularStroke | game.js:81-121 | with the irregular tool and two buffered points, a stroke adds one polygon placed at its start point over the buffer, its start point and its end point, then empties the buffer and ends the stroke |
| Session.ThreeIrregularStrokes | game.js:86-119 | with the irregular tool and an empty buffer, the first two strokes add nothing, and the third adds one polygon over [start1, start2, start3, end3] placed at start3 and empties the buffer |

## Left out

- Engine, renderer and runner set-up (game.js:1-29): external simulation and drawing. The canvas size is a parameter instead of being read from the window.
- Physics stepping, restitution and friction solving: these are the engine's work. The ball's motion appears only as the `EngineMoved` event, which sets its position and velocity.
- Mouse-constraint dynamics (game.js:55-64), including its `stiffness: 0.2`, which sets how strongly a dragged body is pulled toward the pointer: the engine runs them. The constraint is kept only as an opaque item of the world.
- DOM wiring and copying the first touch into `clientX`/`clientY` (game.js:71-84, 96-99): a pointer event is taken as its client point. The event datatype stands in for the handler registration.
- Client coordinates equal canvas coordinates only when the canvas sits at the viewport origin. The page layout is not part of this model, so the model cannot say where a shape appears relative to the cursor otherwise.
- `alert('Level Complete!')` (game.js:129): a user-interface side effect with no effect on the state.
- Decomposition and centring inside `Bodies.fromVertices`: an engine call whose internals are not part of this model. Only the vertex list and the placement point are kept.
- Render styles (`fillStyle`, `visible`): presentation only.
- Floating-point rounding: coordinates are exact reals.
- Session.Reset: the source resets the ball's position and velocity but not its angle or spin. The model keeps no angle or spin, so it cannot state that those are left unchanged.

=== FILE: bodies.dfy ===
/** Body descriptors: what a call to the engine's body constructors records,
    tagged with the role the body plays in the game. The world is a sequence
    of items, each a body or the single mouse constraint. */
module Bodies {
  import opened Geometry

  /** The role of a body; every body created by the game has exactly one. */
  datatype Kind = Ball | Hole | Ground | LeftWall | RightWall | Ceiling | Drawn

  /** The options the game passes to the constructors. */
  datatype Options = Options(isStatic: bool, isSensor: bool, restitution: real)

  /** The engine's defaults for options the caller leaves out. */
  const Defaults := Options(false, false, 0.0)

  /** `{ isStatic: true }`, used for walls and for every drawn shape. */
  const StaticOnly := Defaults.(isStatic := true)

  datatype Body = Body(kind: Kind, shape: Shape, options: Options)

  datatype Item = BodyItem(body: Body) | MouseConstraint

  predicate IsKind(item: Item, k: Kind)
  {
    item.BodyItem? && item.body.kind == k
  }

  /** A body the player drew: tagged Drawn and created with `{ isStatic: true }`. */
  predicate IsDrawnStatic(item: Item)
  {
    item.BodyItem? && item.body.kind == Drawn && item.body.options == StaticOnly
  }

  /** 1 when the item is a body of kind k, else 0. */
  function Indicator(item: Item, k: Kind): nat
  {
    if IsKind(item, k) then 1 else 0
  }

  /** Number of bodies of kind k in the world. */
  function CountKind(w: seq<Item>, k: Kind): (n: nat)
    ensures n <= |w|
    ensures n == 0 <==> forall i :: 0 <= i < |w| ==> !IsKind(w[i], k)
  {
    if |w| == 0 then 0
    else Indicator(w[0], k) + CountKind(w[1..], k)
  }

  /** Number of mouse constraints in the world. */
  function CountMouse(w: seq<Item>): (n: nat)
    ensures n <= |w|
    ensures n == 0 <==> forall i :: 0 <= i < |w| ==> !w[i].MouseConstraint?
  {
    if |w| == 0 then 0
    else (if w[0].MouseConstraint? then 1 else 0) + CountMouse(w[1..])
  }

  lemma {:induction false} CountKindAppend(a: seq<Item>, b: seq<Item>, k: Kind)
    ensures CountKind(a + b, k) == CountKind(a, k) + CountKind(b, k)
  {
    if |a| == 0 {
      assert a + b == b;
    } else {
      assert (a + b)[1..] == a[1..] + b;
      CountKindAppend(a[1..], b, k);
    }
  }

  lemma CountKindPair(a: Item, b: Item, k: Kind)
    ensures CountKind([a, b], k) == Indicator(a, k) + Indicator(b, k)
  {
  }

  /** Counting over three pairs of items followed by the mouse constraint. */
  lemma CountKindThreePairs(a: Item, b: Item, c: Item, d: Item, e: Item, f: Item, k: Kind)
    ensures CountKind([a, b] + ([c, d] + [e, f]) + [MouseConstraint], k)
         == Indicator(a, k) + Indicator(b, k) + Indicator(c, k) + Indicator(d, k) + Indicator(e, k) + Indicator(f, k)
  {
    CountKindPair(a, b, k);
    CountKindPair(c, d, k);
    CountKindPair(e, f, k);
    CountKindAppend([c, d], [e, f], k);
    CountKindAppend([a, b], [c, d] + [e, f], k);
    CountKindAppend([a, b] + ([c, d] + [e, f]), [MouseConstraint], k);
  }

  lemma {:induction false} CountMouseAppend(a: seq<Item>, b: seq<Item>)
    ensures CountMouse(a + b) == CountMouse(a) + CountMouse(b)
  {
    if |a| == 0 {
      assert a + b == b;
    } else {
      assert (a + b)[1..] == a[1..] + b;
      CountMouseAppend(a[1..], b);
    }
  }
}

=== FILE: drawing.dfy ===
/** The sketch-to-obstacle machine: the selected drawing tool, the stroke in
    progress, the vertex buffer of the irregular tool, and the world the
    finished strokes are added to. A pointer position is the event's client
    (viewport) coordinates, used as world coordinates without conversion. */
module Drawing {
  import opened Geometry
  import opened Bodies
  import opened Layout

  /** The three drawing tools, selected by the toolbar buttons. */
  datatype Mode = RectMode | CircleMode | IrregularMode

  /** Position and velocity of the ball, which the physics engine changes
      between events. */
  datatype Kinematics = Kinematics(position: Point, velocity: Vector)

  /** The whole mutable state of the game.
      `start` is the point the last stroke began at; `points` is the vertex
      buffer the irregular tool fills. */
  datatype State = State(
    mode: Mode,
    isDrawing: bool,
    start: Point,
    points: seq<Point>,
    world: seq<Item>,
    ball: Kinematics)

  /** The ball at rest at its start position. */
  const BallAtRest := Kinematics(BallStart, Zero)

  /** The state right after start-up: rectangle tool, no stroke, empty buffer,
      the fixed world, the ball at rest. The stroke start is not yet defined
      in the source; it is never read before the first stroke writes it, so
      any value serves here. */
  function Initial(cfg: Config): (s: State)
    ensures s.mode == RectMode && !s.isDrawing && s.points == []
    ensures s.world == FixedWorld(cfg) && s.ball == BallAtRest
  {
    State(RectMode, false, Origin, [], FixedWorld(cfg), BallAtRest)
  }

  /** A toolbar button selects a tool; nothing else changes, in particular
      neither the vertex buffer nor a stroke in progress. */
  function SetMode(s: State, m: Mode): (r: State)
    ensures r.mode == m
    ensures r.isDrawing == s.isDrawing && r.start == s.start
    ensures r.points == s.points && r.world == s.world && r.ball == s.ball
  {
    s.(mode := m)
  }

  /** Pointer down: a stroke begins at p. Only the irregular tool records p
      in the vertex buffer; the buffer is never cleared here. */
  function StartDrawing(s: State, p: Point): (r: State)
    ensures r.isDrawing && r.start == p
    ensures r.mode == s.mode && r.world == s.world && r.ball == s.ball
    ensures |s.points| <= |r.points| && r.points[..|s.points|] == s.points
    ensures s.mode == IrregularMode ==> |r.points| == |s.points| + 1 && r.points[|s.points|] == p
    ensures s.mode != IrregularMode ==> r.points == s.points
  {
    var pts := if s.mode == IrregularMode then s.points + [p] else s.points;
    s.(start := p, isDrawing := true, points := pts)
  }

  /** A static body the player drew, with the given shape. */
  function DrawnItem(shape: Shape): Item
  {
    BodyItem(Body(Drawn, shape, StaticOnly))
  }

  /** The world grew by exactly one drawn static body, appended at the end,
      and that body is the returned item. */
  predicate AddedOne(before: seq<Item>, after: seq<Item>)
  {
    && |after| == |before| + 1
    && after[..|before|] == before
    && IsDrawnStatic(after[|before|])
  }

  /** Pointer up at p. Without a stroke in progress nothing happens.
      Otherwise the stroke ends, and:
      - the rectangle tool adds a static rectangle spanning the box with
        corners at the stroke's start and p, even a degenerate one;
      - the circle tool adds a static circle centred at the stroke start whose
        diameter is the larger of the stroke's horizontal and vertical extents;
      - the irregular tool, when the buffer holds more than two points, adds a
        static polygon over the buffer followed by p, placed at the stroke
        start, and empties the buffer; otherwise it adds nothing and keeps
        the buffer. */
  function FinishDrawing(s: State, p: Point): (r: State)
    ensures !s.isDrawing ==> r == s
    ensures s.isDrawing ==> !r.isDrawing
    ensures r.mode == s.mode && r.start == s.start && r.ball == s.ball
    ensures s.isDrawing && s.mode == RectMode ==>
              && AddedOne(s.world, r.world) && r.points == s.points
              && var sh := r.world[|s.world|].body.shape;
                 sh.Rectangle? && SpansBox(sh, s.start, p)
    ensures s.isDrawing && s.mode == CircleMode ==>
              && AddedOne(s.world, r.world) && r.points == s.points
              && var sh := r.world[|s.world|].body.shape;
                 && sh.Circle? && sh.center == s.start
                 && 2.0 * sh.radius >= Abs(p.x - s.start.x)
                 && 2.0 * sh.radius >= Abs(p.y - s.start.y)
                 && (2.0 * sh.radius == Abs(p.x - s.start.x) || 2.0 * sh.radius == Abs(p.y - s.start.y))
    ensures s.isDrawing && s.mode == IrregularMode && |s.points| > 2 ==>
              && AddedOne(s.world, r.world) && r.points == []
              && var sh := r.world[|s.world|].body.shape;
                 && sh.Polygon? && sh.anchor == s.start
                 && |sh.vertices| == |s.points| + 1 >= 4
                 && sh.vertices[..|s.points|] == s.points && sh.vertices[|s.points|] == p
    ensures s.isDrawing && s.mode == IrregularMode && |s.points| <= 2 ==>
              r.world == s.world && r.points == s.points
  {
    if !s.isDrawing then s
    else
      var w := Abs(p.x - s.start.x);
      var h := Abs(p.y - s.start.y);
      match s.mode
      case RectMode =>
        s.(world := s.world + [DrawnItem(Rectangle(Midpoint(s.start, p), w, h))], isDrawing := false)
      case CircleMode =>
        s.(world := s.world + [DrawnItem(Circle(s.start, Max(w, h) / 2.0))], isDrawing := false)
      case IrregularMode =>
        if |s.points| > 2 then
          s.(world := s.world + [DrawnItem(Polygon(s.start, s.points + [p]))], points := [], isDrawing := false)
        else
          s.(isDrawing := false)
  }

  /** A click without a drag in rectangle mode still adds a body: a
      rectangle of zero width and height at the click point. */
  lemma DegenerateRectangleKept(s: State, p: Point)
    requires s.mode == RectMode
    ensures FinishDrawing(StartDrawing(s, p), p).world == s.world + [DrawnItem(Rectangle(p, 0.0, 0.0))]
  {
  }
}

=== FILE: geometry.dfy ===
/** Plane geometry shared by the whole model: points in world coordinates
    (x grows to the right, y grows downwards; pointer positions enter as the
    event's client coordinates, unchanged) and the three shape descriptors
    the physics engine's body constructors accept. Coordinates are exact reals. */
module Geometry {

  datatype Point = Point(x: real, y: real)

  const Origin := Point(0.0, 0.0)

  /** A velocity: a displacement per unit of time, with the same components as a point. */
  type Vector = Point

  const Zero: Vector := Point(0.0, 0.0)

  /** Shape descriptors, keeping only the constructor arguments:
      a rectangle by centre and size, a circle by centre and radius, and a
      polygon by the point it is placed at and its vertex list. */
  datatype Shape =
    | Rectangle(center: Point, width: real, height: real)
    | Circle(center: Point, radius: real)
    | Polygon(anchor: Point, vertices: seq<Point>)

  function Abs(a: real): (r: real)
    ensures r >= 0.0
    ensures r == a || r == -a
  {
    if a < 0.0 then -a else a
  }

  function Max(a: real, b: real): (r: real)
    ensures r >= a && r >= b
    ensures r == a || r == b
  {
    if a < b then b else a
  }

  function Min(a: real, b: real): (r: real)
    ensures r <= a && r <= b
    ensures r == a || r == b
  {
    if a < b then a else b
  }

  /** The point halfway between p and q. */
  function Midpoint(p: Point, q: Point): (m: Point)
    ensures m.x - p.x == q.x - m.x
    ensures m.y - p.y == q.y - m.y
  {
    Point((p.x + q.x) / 2.0, (p.y + q.y) / 2.0)
  }

  /** Extent of a rectangle along each axis: a rectangle built from centre
      (cx, cy) and size (w, h) occupies [cx - w/2, cx + w/2] x [cy - h/2, cy + h/2]. */
  function XMin(s: Shape): real
    requires s.Rectangle?
  {
    s.center.x - s.width / 2.0
  }

  function XMax(s: Shape): real
    requires s.Rectangle?
  {
    s.center.x + s.width / 2.0
  }

  function YMin(s: Shape): real
    requires s.Rectangle?
  {
    s.center.y - s.height / 2.0
  }

  function YMax(s: Shape): real
    requires s.Rectangle?
  {
    s.center.y + s.height / 2.0
  }

  /** The rectangle is exactly the axis-aligned bounding box of a and b. */
  predicate SpansBox(s: Shape, a: Point, b: Point)
    requires s.Rectangle?
  {
    && XMin(s) == Min(a.x, b.x) && XMax(s) == Max(a.x, b.x)
    && YMin(s) == Min(a.y, b.y) && YMax(s) == Max(a.y, b.y)
  }
}

=== FILE: layout.dfy ===
/** The fixed layout the game creates once at start-up: the ball, the hole,
    the four boundary rectangles around the playfield and the mouse
    constraint. The canvas size is a parameter (the source reads it from the
    browser window). */
module Layout {
  import opened Geometry
  import opened Bodies

  /** Canvas size; the playfield is [0, width] x [0, height]. */
  datatype Config = Config(width: real, height: real)

  const BallStart := Point(100.0, 100.0)
  const BallRadius := 20.0
  const BallRestitution := 0.7
  /** The hole sits this far in from the right and bottom edges. */
  const HoleInset := 100.0
  const HoleRadius := 30.0
  /** Thickness of the ground, walls and ceiling. */
  const Thickness := 50.0
  const GroundRestitution := 0.8

  /** The ball: a dynamic, bouncy circle starting near the top-left corner. */
  function BallBody(): (b: Body)
    ensures b.kind == Ball && b.shape.Circle?
    ensures b.shape.center == BallStart && b.shape.radius == BallRadius
    ensures !b.options.isStatic && !b.options.isSensor
    ensures b.options.restitution == BallRestitution
  {
    Body(Ball, Circle(BallStart, BallRadius), Defaults.(restitution := BallRestitution))
  }

  /** The hole: a static sensor circle near the bottom-right corner. */
  function HoleBody(cfg: Config): (b: Body)
    ensures b.kind == Hole && b.shape.Circle?
    ensures cfg.width - b.shape.center.x == HoleInset
    ensures cfg.height - b.shape.center.y == HoleInset
    ensures b.shape.radius == HoleRadius
    ensures b.options.isStatic && b.options.isSensor
  {
    Body(Hole, Circle(Point(cfg.width - HoleInset, cfg.height - HoleInset), HoleRadius),
         Defaults.(isStatic := true, isSensor := true))
  }

  /** The ground lies just below the playfield and spans its full width. */
  function GroundBody(cfg: Config): (b: Body)
    ensures b.kind == Ground && b.shape.Rectangle?
    ensures XMin(b.shape) == 0.0 && XMax(b.shape) == cfg.width
    ensures YMin(b.shape) == cfg.height && YMax(b.shape) == cfg.height + Thickness
    ensures b.options.isStatic && !b.options.isSensor
    ensures b.options.restitution == GroundRestitution
  {
    Body(Ground, Rectangle(Point(cfg.width / 2.0, cfg.height + Thickness / 2.0), cfg.width, Thickness),
         StaticOnly.(restitution := GroundRestitution))
  }

  /** The left wall lies just left of the playfield and spans its full height. */
  function LeftWallBody(cfg: Config): (b: Body)
    ensures b.kind == LeftWall && b.shape.Rectangle?
    ensures XMin(b.shape) == -Thickness && XMax(b.shape) == 0.0
    ensures YMin(b.shape) == 0.0 && YMax(b.shape) == cfg.height
    ensures b.options == StaticOnly
  {
    Body(LeftWall, Rectangle(Point(-Thickness / 2.0, cfg.height / 2.0), Thickness, cfg.height), StaticOnly)
  }

  /** The right wall lies just right of the playfield and spans its full height. */
  function RightWallBody(cfg: Config): (b: Body)
    ensures b.kind == RightWall && b.shape.Rectangle?
    ensures XMin(b.shape) == cfg.width && XMax(b.shape) == cfg.width + Thickness
    ensures YMin(b.shape) == 0.0 && YMax(b.shape) == cfg.height
    ensures b.options == StaticOnly
  {
    Body(RightWall, Rectangle(Point(cfg.width + Thickness / 2.0, cfg.height / 2.0), Thickness, cfg.height),
         StaticOnly)
  }

  /** The ceiling lies just above the playfield and spans its full width. */
  function CeilingBody(cfg: Config): (b: Body)
    ensures b.kind == Ceiling && b.shape.Rectangle?
    ensures XMin(b.shape) == 0.0 && XMax(b.shape) == cfg.width
    ensures YMin(b.shape) == -Thickness && YMax(b.shape) == 0.0
    ensures b.options == StaticOnly
  {
    Body(Ceiling, Rectangle(Point(cfg.width / 2.0, -Thickness / 2.0), cfg.width, Thickness), StaticOnly)
  }

  /** A rectangle has no interior point in common with the open playfield. */
  predicate OutsidePlayfield(cfg: Config, s: Shape)
    requires s.Rectangle?
  {
    XMax(s) <= 0.0 || XMin(s) >= cfg.width || YMax(s) <= 0.0 || YMin(s) >= cfg.height
  }

  /** The rectangle lies on the bottom edge line and covers the whole edge. */
  predicate CoversBottomEdge(cfg: Config, s: Shape)
    requires s.Rectangle?
  {
    YMin(s) == cfg.height && XMin(s) <= 0.0 && cfg.width <= XMax(s)
  }

  /** The rectangle lies on the top edge line and covers the whole edge. */
  predicate CoversTopEdge(cfg: Config, s: Shape)
    requires s.Rectangle?
  {
    YMax(s) == 0.0 && XMin(s) <= 0.0 && cfg.width <= XMax(s)
  }

  /** The rectangle lies on the left edge line and covers the whole edge. */
  predicate CoversLeftEdge(cfg: Config, s: Shape)
    requires s.Rectangle?
  {
    XMax(s) == 0.0 && YMin(s) <= 0.0 && cfg.height <= YMax(s)
  }

  /** The rectangle lies on the right edge line and covers the whole edge. */
  predicate CoversRightEdge(cfg: Config, s: Shape)
    requires s.Rectangle?
  {
    XMin(s) == cfg.width && YMin(s) <= 0.0 && cfg.height <= YMax(s)
  }

  /** The four boundary rectangles, as the source adds them. */
  function BoundaryItems(cfg: Config): seq<Item>
  {
    [BodyItem(GroundBody(cfg)), BodyItem(LeftWallBody(cfg)),
     BodyItem(RightWallBody(cfg)), BodyItem(CeilingBody(cfg))]
  }

  /** The world as created at start-up and as restored by a reset, in the
      order the source adds its items. */
  function FixedWorld(cfg: Config): seq<Item>
  {
    [BodyItem(BallBody()), BodyItem(HoleBody(cfg))] + BoundaryItems(cfg) + [MouseConstraint]
  }

  /** The fixed world holds seven items: one body of each fixed role, the
      mouse constraint, and no drawn body. */
  lemma FixedWorldCounts(cfg: Config)
    ensures |FixedWorld(cfg)| == 7
    ensures CountKind(FixedWorld(cfg), Ball) == 1 && CountKind(FixedWorld(cfg), Hole) == 1
    ensures CountKind(FixedWorld(cfg), Ground) == 1 && CountKind(FixedWorld(cfg), LeftWall) == 1
    ensures CountKind(FixedWorld(cfg), RightWall) == 1 && CountKind(FixedWorld(cfg), Ceiling) == 1
    ensures CountKind(FixedWorld(cfg), Drawn) == 0
    ensures CountMouse(FixedWorld(cfg)) == 1
  {
    var ballAndHole := [BodyItem(BallBody()), BodyItem(HoleBody(cfg))];
    var walls := BoundaryItems(cfg);
    var w := FixedWorld(cfg);
    assert w == ballAndHole + walls + [MouseConstraint];
    assert walls == [walls[0], walls[1]] + [walls[2], walls[3]];
    forall k: Kind
      ensures CountKind(w, k) == if k == Drawn then 0 else 1
    {
      CountKindThreePairs(ballAndHole[0], ballAndHole[1], walls[0], walls[1], walls[2], walls[3], k);
      assert Indicator(ballAndHole[0], k) == if k == Ball then 1 else 0;
      assert Indicator(ballAndHole[1], k) == if k == Hole then 1 else 0;
      assert Indicator(walls[0], k) == if k == Ground then 1 else 0;
      assert Indicator(walls[1], k) == if k == LeftWall then 1 else 0;
      assert Indicator(walls[2], k) == if k == RightWall then 1 else 0;
      assert Indicator(walls[3], k) == if k == Ceiling then 1 else 0;
    }
    CountMouseAppend([walls[0], walls[1]], [walls[2], walls[3]]);
    CountMouseAppend(ballAndHole, walls);
    CountMouseAppend(ballAndHole + walls, [MouseConstraint]);
  }

  /** Every boundary is a static rectangle with no interior point in the
      playfield; the ground covers the bottom edge, the left and right walls
      the side edges, and the ceiling the top edge. */
  lemma BoundariesEnclosePlayfield(cfg: Config)
    ensures forall it :: it in BoundaryItems(cfg) ==>
              it.BodyItem? && it.body.options.isStatic && it.body.shape.Rectangle? &&
              OutsidePlayfield(cfg, it.body.shape)
    ensures CoversBottomEdge(cfg, GroundBody(cfg).shape)
    ensures CoversLeftEdge(cfg, LeftWallBody(cfg).shape)
    ensures CoversRightEdge(cfg, RightWallBody(cfg).shape)
    ensures CoversTopEdge(cfg, CeilingBody(cfg).shape)
  {
  }
}

=== FILE: session.dfy ===
/** Reset, the hole-detection rule on collision events, and the game as a
    whole: a state driven by a sequence of input, physics and collision
    events, with the invariants every reachable state keeps. */
module Session {
  import opened Geometry
  import opened Bodies
  import opened Layout
  import opened Drawing

  /** The reset button, and the effect of the ball reaching the hole: the
      world becomes exactly the fixed world again, whatever it held, and the
      ball is put back at its start position with zero velocity. The drawing
      tool, the stroke in progress and the vertex buffer are left alone. */
  function Reset(cfg: Config, s: State): (r: State)
    ensures r.world == FixedWorld(cfg)
    ensures CountKind(r.world, Drawn) == 0
    ensures r.ball.position == BallStart && r.ball.velocity == Zero
    ensures r.mode == s.mode && r.isDrawing == s.isDrawing
    ensures r.start == s.start && r.points == s.points
  {
    FixedWorldCounts(cfg);
    s.(world := FixedWorld(cfg), ball := BallAtRest)
  }

  /** Resetting twice is resetting once. */
  lemma ResetIdempotent(cfg: Config, s: State)
    ensures Reset(cfg, Reset(cfg, s)) == Reset(cfg, s)
  {
  }

  /** The world and ball after a reset do not depend on what came before,
      and match the start-up state. */
  lemma ResetRestoresStartup(cfg: Config, s: State, t: State)
    requires s.mode == t.mode && s.isDrawing == t.isDrawing
    requires s.start == t.start && s.points == t.points
    ensures Reset(cfg, s) == Reset(cfg, t)
    ensures Reset(cfg, s).world == Initial(cfg).world
    ensures Reset(cfg, s).ball == Initial(cfg).ball
  {
  }

  /** One contact pair reported by the engine when two bodies start touching. */
  datatype Pair = Pair(bodyA: Body, bodyB: Body)

  /** The pair is the ball and the hole, in either order. */
  predicate IsBallHole(cfg: Config, pair: Pair)
  {
    || (pair.bodyA == BallBody() && pair.bodyB == HoleBody(cfg))
    || (pair.bodyA == HoleBody(cfg) && pair.bodyB == BallBody())
  }

  /** The collision-start handler: every pair is examined in order, and each
      ball/hole pair resets the game. Whatever the batch, the result is the
      state before it when no pair is ball/hole, and a single reset of it
      otherwise. */
  function HandlePairs(cfg: Config, s: State, pairs: seq<Pair>): (r: State)
    ensures (exists i :: 0 <= i < |pairs| && IsBallHole(cfg, pairs[i])) ==> r == Reset(cfg, s)
    ensures (forall i :: 0 <= i < |pairs| ==> !IsBallHole(cfg, pairs[i])) ==> r == s
    decreases |pairs|
  {
    if |pairs| == 0 then s
    else
      var next := if IsBallHole(cfg, pairs[0]) then Reset(cfg, s) else s;
      HandlePairs(cfg, next, pairs[1..])
  }

  /** Everything the game reacts to: the toolbar, the pointer, the engine
      moving the ball, and a batch of collision-start pairs. */
  datatype Event =
    | SelectMode(mode: Mode)
    | PointerDown(at: Point)
    | PointerUp(at: Point)
    | ResetClick
    | EngineMoved(ball: Kinematics)
    | CollisionStart(pairs: seq<Pair>)

  /** Each event runs its handler: a tool button selects its tool, pointer
      down starts a stroke, pointer up ends one, the reset button resets, and
      a collision batch resets exactly when it holds a ball/hole pair. The
      engine's only effect on the game state is to set the ball's position
      and velocity; the toolbar and the pointer never move the ball, and
      only pointer up can add a body. */
  function Step(cfg: Config, s: State, e: Event): (r: State)
    ensures e.SelectMode? ==> r.mode == e.mode && r.points == s.points && r.world == s.world
    ensures e.PointerDown? ==> r.isDrawing && r.start == e.at && r.world == s.world
    ensures e.PointerUp? ==> !r.isDrawing
    ensures e.PointerUp? && !s.isDrawing ==> r == s
    ensures (e.SelectMode? || e.PointerDown? || e.PointerUp?) ==> r.ball == s.ball
    ensures e.ResetClick? ==> r == Reset(cfg, s)
    ensures e.CollisionStart? && (exists i :: 0 <= i < |e.pairs| && IsBallHole(cfg, e.pairs[i])) ==>
              r == Reset(cfg, s)
    ensures e.CollisionStart? && (forall i :: 0 <= i < |e.pairs| ==> !IsBallHole(cfg, e.pairs[i])) ==>
              r == s
    ensures e.EngineMoved? ==>
              && r.ball == e.ball && r.world == s.world && r.mode == s.mode
              && r.isDrawing == s.isDrawing && r.start == s.start && r.points == s.points
  {
    match e
    case SelectMode(m) => SetMode(s, m)
    case PointerDown(p) => StartDrawing(s, p)
    case PointerUp(p) => FinishDrawing(s, p)
    case ResetClick => Reset(cfg, s)
    case EngineMoved(k) => s.(ball := k)
    case CollisionStart(pairs) => HandlePairs(cfg, s, pairs)
  }

  function Run(cfg: Config, s: State, events: seq<Event>): State
    decreases |events|
  {
    if |events| == 0 then s else Run(cfg, Step(cfg, s, events[0]), events[1..])
  }

  /** The shape of every world the game can reach: the fixed world first,
      followed only by static bodies the player drew. */
  predicate WorldInv(cfg: Config, w: seq<Item>)
  {
    && |w| >= 7
    && w[..7] == FixedWorld(cfg)
    && forall i :: 7 <= i < |w| ==> IsDrawnStatic(w[i])
  }

  lemma InitialWorldInv(cfg: Config)
    ensures WorldInv(cfg, Initial(cfg).world)
  {
    FixedWorldCounts(cfg);
  }

  /** Appending one drawn static body keeps a world well-formed. */
  lemma AddedOnePreservesWorldInv(cfg: Config, before: seq<Item>, after: seq<Item>)
    requires WorldInv(cfg, before) && AddedOne(before, after)
    ensures WorldInv(cfg, after)
  {
    assert after[..7] == after[..|before|][..7];
    forall i | 7 <= i < |after|
      ensures IsDrawnStatic(after[i])
    {
      if i < |before| {
        assert after[i] == after[..|before|][i];
      }
    }
  }

  lemma FinishPreservesWorldInv(cfg: Config, s: State, p: Point)
    requires WorldInv(cfg, s.world)
    ensures WorldInv(cfg, FinishDrawing(s, p).world)
  {
    var r := FinishDrawing(s, p);
    if r.world != s.world {
      AddedOnePreservesWorldInv(cfg, s.world, r.world);
    }
  }

  lemma StepPreservesWorldInv(cfg: Config, s: State, e: Event)
    requires WorldInv(cfg, s.world)
    ensures WorldInv(cfg, Step(cfg, s, e).world)
  {
    match e
    case PointerUp(p) =>
      FinishPreservesWorldInv(cfg, s, p);
    case ResetClick =>
      FixedWorldCounts(cfg);
    case CollisionStart(pairs) =>
      var r := HandlePairs(cfg, s, pairs);
      assert r == s || r == Reset(cfg, s);
    case _ =>
  }

  /** Every world reachable from a well-formed one is well-formed. */
  lemma {:induction false} RunPreservesWorldInv(cfg: Config, s: State, events: seq<Event>)
    requires WorldInv(cfg, s.world)
    ensures WorldInv(cfg, Run(cfg, s, events).world)
    decreases |events|
  {
    if |events| > 0 {
      StepPreservesWorldInv(cfg, s, events[0]);
      RunPreservesWorldInv(cfg, Step(cfg, s, events[0]), events[1..]);
    }
  }

  lemma {:induction false} DrawnOnlyCounts(w: seq<Item>, k: Kind)
    requires forall i :: 0 <= i < |w| ==> IsDrawnStatic(w[i])
    ensures CountKind(w, k) == (if k == Drawn then |w| else 0)
    ensures CountMouse(w) == 0
  {
    if |w| > 0 {
      DrawnOnlyCounts(w[1..], k);
    }
  }

  /** Appending drawn bodies adds only to the count of drawn bodies. */
  lemma DrawnSuffixCounts(fixed: seq<Item>, drawn: seq<Item>, k: Kind)
    requires forall i :: 0 <= i < |drawn| ==> IsDrawnStatic(drawn[i])
    ensures CountKind(fixed + drawn, k) == CountKind(fixed, k) + (if k == Drawn then |drawn| else 0)
    ensures CountMouse(fixed + drawn) == CountMouse(fixed)
  {
    CountKindAppend(fixed, drawn, k);
    CountMouseAppend(fixed, drawn);
    DrawnOnlyCounts(drawn, k);
  }

  /** A well-formed world holds exactly one ball, one hole, one of each
      boundary and one mouse constraint; every other body was drawn. */
  lemma WorldInvCounts(cfg: Config, w: seq<Item>)
    requires WorldInv(cfg, w)
    ensures CountKind(w, Ball) == 1 && CountKind(w, Hole) == 1
    ensures CountKind(w, Ground) == 1 && CountKind(w, LeftWall) == 1
    ensures CountKind(w, RightWall) == 1 && CountKind(w, Ceiling) == 1
    ensures CountMouse(w) == 1
    ensures CountKind(w, Drawn) == |w| - 7
  {
    var fixed, drawn := w[..7], w[7..];
    assert w == fixed + drawn;
    FixedWorldCounts(cfg);
    DrawnSuffixCounts(fixed, drawn, Ball);
    DrawnSuffixCounts(fixed, drawn, Hole);
    DrawnSuffixCounts(fixed, drawn, Ground);
    DrawnSuffixCounts(fixed, drawn, LeftWall);
    DrawnSuffixCounts(fixed, drawn, RightWall);
    DrawnSuffixCounts(fixed, drawn, Ceiling);
    DrawnSuffixCounts(fixed, drawn, Drawn);
  }

  /** From start-up, whatever happens, the world holds exactly one ball and
      one hole and all four boundaries. */
  lemma ReachableWorldCounts(cfg: Config, events: seq<Event>)
    ensures var w := Run(cfg, Initial(cfg), events).world;
            && CountKind(w, Ball) == 1 && CountKind(w, Hole) == 1
            && CountKind(w, Ground) == 1 && CountKind(w, LeftWall) == 1
            && CountKind(w, RightWall) == 1 && CountKind(w, Ceiling) == 1
  {
    InitialWorldInv(cfg);
    RunPreservesWorldInv(cfg, Initial(cfg), events);
    WorldInvCounts(cfg, Run(cfg, Initial(cfg), events).world);
  }

  /** One stroke: a pointer down at a followed by a pointer up at b. */
  function Stroke(a: Point, b: Point): seq<Event>
  {
    [PointerDown(a), PointerUp(b)]
  }

  /** Running a stroke is starting and then finishing it. */
  lemma RunStroke(cfg: Config, s: State, a: Point, b: Point, rest: seq<Event>)
    ensures Run(cfg, s, Stroke(a, b) + rest) == Run(cfg, FinishDrawing(StartDrawing(s, a), b), rest)
  {
    var es := Stroke(a, b) + rest;
    assert es[1..][1..] == rest;
  }

  /** An irregular stroke that ends with at most two buffered points keeps
      only its start point and adds nothing. */
  lemma ShortIrregularStroke(cfg: Config, s: State, a: Point, b: Point, rest: seq<Event>) returns (t: State)
    requires s.mode == IrregularMode && |s.points| <= 1
    ensures Run(cfg, s, Stroke(a, b) + rest) == Run(cfg, t, rest)
    ensures t.points == s.points + [a] && t.world == s.world
    ensures t.mode == IrregularMode && !t.isDrawing
  {
    t := FinishDrawing(StartDrawing(s, a), b);
    RunStroke(cfg, s, a, b, rest);
  }

  /** An irregular stroke that starts with two buffered points closes a
      polygon over them, its start point and its end point. */
  lemma ClosingIrregularStroke(cfg: Config, s: State, a: Point, b: Point) returns (t: State)
    requires s.mode == IrregularMode && |s.points| == 2
    ensures Run(cfg, s, Stroke(a, b)) == t
    ensures t.world == s.world + [DrawnItem(Polygon(a, s.points + [a, b]))]
    ensures t.points == [] && !t.isDrawing
  {
    t := FinishDrawing(StartDrawing(s, a), b);
    assert StartDrawing(s, a).points + [b] == s.points + [a, b];
    assert Stroke(a, b) == Stroke(a, b) + [];
    RunStroke(cfg, s, a, b, []);
  }

  /** With the irregular tool and an empty buffer, three strokes make one
      polygon: the first two strokes add nothing and keep only their start
      points, and the third adds a polygon over the three start points and
      the last release point, placed at the third start point. */
  lemma ThreeIrregularStrokes(cfg: Config, s: State, a1: Point, b1: Point, a2: Point, b2: Point, a3: Point, b3: Point)
    requires s.mode == IrregularMode && s.points == []
    ensures var r := Run(cfg, s, Stroke(a1, b1) + (Stroke(a2, b2) + Stroke(a3, b3)));
            && r.world == s.world + [DrawnItem(Polygon(a3, [a1, a2, a3, b3]))]
            && r.points == [] && !r.isDrawing
  {
    var s1 := ShortIrregularStroke(cfg, s, a1, b1, Stroke(a2, b2) + Stroke(a3, b3));
    var s2 := ShortIrregularStroke(cfg, s1, a2, b2, Stroke(a3, b3));
    assert s2.points + [a3, b3] == [a1, a2, a3, b3];
    var s3 := ClosingIrregularStroke(cfg, s2, a3, b3);
  }
}
